=== FILE: README.md ===
# Battery gauge redraw, modelled in Dafny

This project models `battery_gauge::draw_screen`, the ESPHome routine that paints a battery-status gauge on a small monochrome display. On every call the routine takes five sensor readings: battery percentage, battery kW (negative while charging), solar kW, grid kW and reserve percentage. Any of them may be NaN. The caller also passes two variables by reference, the flow mode (`int`: -1 charging, 0 idle, 1 discharging) and the animation phase (`float`).

The model keeps the routine's decision logic and states it as pure functions over `real`, `int` and `Option<real>`; a NaN reading is `None`:

- **Sanitisation** (`Sensors`): a missing battery percentage stops the routine. Both percentages are clamped to [0, 100]. A missing reserve becomes 20.
- **Hysteresis** (`Hysteresis`): a mode is entered at ±0.08 kW and left at ±0.03 kW. The module also gives the grid/solar source flags (grid wins) and the mode word.
- **Animation** (`Animation`): the phase advances by `0.02 + 0.14 · clamp(|kW| / 3, 0, 1)` and wraps once when it exceeds 1. The marker is placed on a 22-pixel track.
- **Bar gauge** (`BarGauge`): gives the fill width and the reserve tick. The fill splits into a hatched part below the tick and a solid part above it. It also gives the hatch columns.
- **One redraw** (`GaugeRenderer.Draw`): composes all of the above into the new flow state and a record of what the frame shows. `GaugeRenderer.Run` threads the flow state through a sequence of calls.

`int(x)` on a float is modelled as truncation toward zero (`Numeric.Trunc`).

Two details of the code shape the model:

- The wrap at `display_draw.h` line 131 tests `> 1.0f` and subtracts 1 once. A phase of exactly 1.0 is therefore kept, and a phase far outside [0, 1] is not reduced modulo 1 in one call.
- Line 157 tests `from_solar` before `from_grid` when it picks the source icon. `Attribute` never sets both flags, so the order does not change the icon.

## Model

| member | source | states |
|---|---|---|
| Numeric.Trunc | battery_gauge/display_draw.h:141 | `int(x)` drops the fractional part toward zero: for x ≥ 0 the result r has r ≤ x < r+1, for x ≤ 0 it has r−1 < x ≤ r |
| Numeric.ClampReal | battery_gauge/display_draw.h:30-35 | the clamped value lies in [lo, hi], equals x when x is already inside, and is the point of [lo, hi] nearest to x |
| Numeric.ClampInt | battery_gauge/display_draw.h:172 | `min(max(x, lo), hi)` lies in [lo, hi], keeps x when inside, and gives lo below the range and hi above it |
| Numeric.Abs | battery_gauge/display_draw.h:126 | `fabsf` is non-negative and equals x or −x |
| Sensors.Sanitize | battery_gauge/display_draw.h:23-35 | returns no inputs exactly when the battery percentage is NaN; otherwise both percentages lie in [0, 100] and are the nearest in-range values to the readings, in-range readings are kept, a NaN reserve becomes 20, and the power readings pass through unchanged |
| Sensors.SanitizeIdempotent | battery_gauge/display_draw.h:29-35 | sanitising already-sanitised readings changes nothing |
| Sensors.AsRaw | battery_gauge/display_draw.h:29-35 | readings whose percentages are already in [0, 100], fed back in as raw readings, pass sanitisation unchanged |
| Hysteresis.NextMode | battery_gauge/display_draw.h:78-92 | from idle: ≤ −0.08 gives charging, ≥ 0.08 gives discharging, otherwise idle stays; charging becomes idle iff kW > −0.03; discharging becomes idle iff kW < 0.03; a NaN reading or a mode outside {−1, 0, 1} is left unchanged; {−1, 0, 1} is preserved and charging and discharging never swap in one call |
| Hysteresis.HysteresisBands | battery_gauge/display_draw.h:83-92 | readings in (−0.08, −0.03] keep idle and charging, readings in [0.03, 0.08) keep idle and discharging, and readings strictly between −0.03 and 0.03 bring every known mode to idle |
| Hysteresis.SettlesInTwoCalls | battery_gauge/display_draw.h:83-92 | with a steady reading, the mode after two calls is a fixed point of the update |
| Hysteresis.Attribute | battery_gauge/display_draw.h:97-103 | `from_grid` and `from_solar` are never both set; grid is set iff charging and grid is known and above 0.10; solar is set iff charging, grid did not qualify, and solar is known and above 0.10 |
| Hysteresis.FlagsNeedChargingAndReadings | battery_gauge/display_draw.h:97-103 | a flag is only raised while charging; a NaN reading never raises its flag |
| Hysteresis.ModeWord | battery_gauge/display_draw.h:106-108 | the word is "Discharging" iff the mode is 1, "Charging" iff it is −1, and "Idle" for every other value, out-of-range values included |
| Animation.SpeedFactor | battery_gauge/display_draw.h:125-127 | the factor is in [0, 1]; it is 0 for a NaN reading, 1 at or above 3 kW in magnitude, and \|kW\| / 3 below that |
| Animation.PhaseAdvance | battery_gauge/display_draw.h:130 | the per-call advance lies in [0.02, 0.16]; it is exactly 0.02 for a NaN reading, exactly 0.16 at or above 3 kW in magnitude, and below that 0.02 plus a part proportional to \|kW\| (0.14 · \|kW\| / 3) |
| Animation.AdvanceMonotone | battery_gauge/display_draw.h:126-130 | a larger power magnitude never gives a smaller advance |
| Animation.NextPhase | battery_gauge/display_draw.h:130-131 | the new phase is the old one plus the advance, minus 1 exactly when that sum exceeds 1; a phase ≤ 1 stays ≤ 1, and a phase in [0, 1] lands in (0, 1] |
| Animation.FlowTrack | battery_gauge/display_draw.h:133-141 | the track runs from `y_top + 2` for 22 pixels; the marker's offset is `phase · 22` for downward flow and `(1 − phase) · 22` for upward flow, truncated toward zero on either sign; for a phase in [0, 1] it lies on the track |
| Animation.MarkerFollowsPhase | battery_gauge/display_draw.h:140-141 | for any phase values, as the phase grows the downward marker never moves up and the upward marker never moves down |
| Animation.MarkersMirror | battery_gauge/display_draw.h:140-141 | the upward and downward marker offsets for one phase add to 22 when `phase · 22` is whole and to 21 otherwise |
| Animation.MarkerEndpoints | battery_gauge/display_draw.h:134-141 | phases 0 and 1 put the marker on the track's two ends, swapped between the two flow directions |
| BarGauge.BarOffset | battery_gauge/display_draw.h:171-172 | the fill width is in [0, 116]; for a percentage in [0, 100] it is the truncation of pct / 100 · 116; at or above 100 it is 116, and at or below 0 it is 0 |
| BarGauge.BarOffsetClampsAndGrows | battery_gauge/display_draw.h:171-172 | the fill width is monotone in the percentage, and values below 0 or above 100 fill as 0 or 100 do |
| BarGauge.ReserveMarkerX | battery_gauge/display_draw.h:174-175 | the reserve tick lies in [bar_left, bar_left + 116], at the same offset a fill of that percentage would have |
| BarGauge.Bar | battery_gauge/display_draw.h:171-189 | the hatched width is the smaller of the fill and the reserve offset; a solid rectangle exists iff the fill exceeds the reserve offset, and it starts at the tick and ends at bar_left + fill; hatched plus solid width equals the fill |
| BarGauge.ClampsIdleOnSanitisedInputs | battery_gauge/display_draw.h:171-175 | with both percentages in [0, 100], the integer clamps on fill and tick never change the truncated products |
| BarGauge.HatchColumns | battery_gauge/display_draw.h:180-183 | the hatch lines sit at bar_left, bar_left + 2, …; there are ⌈w / 2⌉ of them for a hatched width w > 0 and none otherwise; all lie inside [bar_left, bar_left + w) |
| GaugeRenderer.DirectionFor | battery_gauge/display_draw.h:148-163 | down arrow iff discharging, up arrow iff charging, ring otherwise |
| GaugeRenderer.LabelMatchesArrow | battery_gauge/display_draw.h:106-163 | the mode word and the arrow agree for every mode value: "Charging" iff up arrow, "Discharging" iff down arrow, "Idle" iff ring |
| GaugeRenderer.SourceIconFor | battery_gauge/display_draw.h:152-159 | a source icon is drawn iff charging: sun iff solar is credited, bolt iff grid alone is credited, dot iff neither is |
| GaugeRenderer.TrackFor | battery_gauge/display_draw.h:148-155 | a track is drawn iff the mode is charging or discharging: downward at x = 118 while discharging, upward at x = 104 while charging; for a phase in [0, 1] the marker is on the track |
| GaugeRenderer.Draw | battery_gauge/display_draw.h:23-189 | a NaN battery percentage gives the placeholder and leaves mode and phase exactly as they were; otherwise mode and phase are updated, in-range state stays in range, the shown percentage is the reading clamped to [0, 100], the bar is the geometry of the sanitised battery and reserve percentages, the arrow and mode word follow the new mode, the source icon is the one the new mode and the solar/grid flags select, and the track is the one the new mode and phase select, and a bolt or sun is shown only when that reading exceeds 0.10 |
| GaugeRenderer.PhaseIgnoresMode | battery_gauge/display_draw.h:125-131 | the phase advance does not depend on the mode |
| GaugeRenderer.Run | battery_gauge/display_draw.h:15-16 | threading the caller-held state through n calls yields n states: the first is the state after the first call, and each later one is the next call applied to the state before it |
| GaugeRenderer.RunStaysInRange | battery_gauge/display_draw.h:83-131 | from a known mode and a phase in [0, 1], every later state over any sequence of calls keeps a known mode and a phase in [0, 1], and no call swaps charging and discharging directly |
| Scenarios.HysteresisTrace | battery_gauge/display_draw.h:83-92 | from idle, readings 0.05, 0.09 and 0.04 kW give idle, discharging, discharging |
| Scenarios.DischargeEndsBelowExit | battery_gauge/display_draw.h:89-90 | discharging at 0.02 kW returns to idle |
| Scenarios.PhaseWrapsAtFullSpeed | battery_gauge/display_draw.h:125-131 | phase 0.95 at 6 kW advances by 0.16 and wraps to 0.11 |
| Scenarios.PhaseOfOneIsKept | battery_gauge/display_draw.h:131 | a phase that reaches exactly 1.0 is not wrapped |
| Scenarios.DefaultReserveTick | battery_gauge/display_draw.h:174-175 | a 20 % reserve puts the tick 23 pixels into the bar |
| Scenarios.GridWinsTie | battery_gauge/display_draw.h:100-103 | with grid and solar both at 0.5 kW while charging, grid is credited and the bolt is drawn |
| Scenarios.MissingPercentIgnoresTheRest | battery_gauge/display_draw.h:23-27 | with no battery percentage the outcome is the placeholder and the old state, whatever the other readings |
| Scenarios.OutOfRangeReadingsMatchTheirClamp | battery_gauge/display_draw.h:29-35 | a battery percentage above 100 or below 0 fills the bar as 100 or 0 does; a missing reserve places the tick where 20 % does |

## Left out

- Display I/O: every `it.*` call, font handles and `printf` formatting are left out. This includes the kW text to one decimal and the `%.0f` percentage. The frame records the values those calls would show, not the pixels.
- Glyph helpers (lines 39-73) and icon coordinates: the arrow, sun, bolt and thick-line lambdas are pure presentation with no behavioural contract. Icons are named, not drawn.
- Outline rectangle, end-cap and reserve-tick line (lines 168-169, 178): these are fixed drawing calls. Only the tick's column is modelled.
- Hatch line vertical extent: the y range from bar_top + 1 to bar_top + 6 is a layout constant. Only the hatch line columns are modelled.
- IEEE single-precision arithmetic: values are exact reals. Constants such as 0.08f, 0.14f and 0.10f are their decimal values, not the nearest float. Float rounding, ±infinity and NaN propagation beyond the explicit `isnan` tests are not modelled.
- A NaN in the caller-owned phase is not modelled: the phase is a real.
- Concurrency and scheduling around the caller-owned state are not modelled. The routine is one synchronous call, and `Run` is the sequential composition of such calls.

=== FILE: animation.dfy ===
/** The flow animation: a phase held by the caller advances, on every call
    that has a battery percentage, by a base step plus a term proportional
    to the battery power, and a marker
    slides along a short vertical track at the position the phase gives. */
module Animation {
  import opened Options
  import opened Numeric

  const MaxKwForSpeed: real := 3.0
  const BaseAdvance: real := 0.020
  const SpeedGain: real := 0.14
  const TrackHeight: int := 22

  /** |kW| / 3 clamped to [0, 1]; a missing reading counts as zero power. */
  function SpeedFactor(kw: Option<real>): (f: real)
    ensures 0.0 <= f <= 1.0
    ensures kw.None? ==> f == 0.0
    ensures kw.Some? && Abs(kw.value) >= MaxKwForSpeed ==> f == 1.0
    ensures kw.Some? && Abs(kw.value) < MaxKwForSpeed ==> f * MaxKwForSpeed == Abs(kw.value)
  {
    var absKw := if kw.Some? then Abs(kw.value) else 0.0;
    ClampReal(absKw / MaxKwForSpeed, 0.0, 1.0)
  }

  /** How far the phase moves in one call. */
  function PhaseAdvance(kw: Option<real>): (a: real)
    ensures BaseAdvance <= a <= BaseAdvance + SpeedGain
    ensures kw.None? ==> a == BaseAdvance
    // Above the cap the advance is the full 0.16; below it, the part above
    // the base step is proportional to the power.
    ensures kw.Some? && Abs(kw.value) >= MaxKwForSpeed ==> a == BaseAdvance + SpeedGain
    ensures kw.Some? && Abs(kw.value) < MaxKwForSpeed ==>
              (a - BaseAdvance) * MaxKwForSpeed == SpeedGain * Abs(kw.value)
  {
    BaseAdvance + SpeedGain * SpeedFactor(kw)
  }

  /** More power never slows the animation down. */
  lemma AdvanceMonotone(k1: real, k2: real)
    requires Abs(k1) <= Abs(k2)
    ensures PhaseAdvance(Some(k1)) <= PhaseAdvance(Some(k2))
  {
  }

  /** The phase after one call. The firmware wraps with `> 1.0f` and
      subtracts 1 once, so exactly 1.0 is kept and a phase far outside
      [0, 1] is not brought back in a single call. */
  function NextPhase(phase: real, kw: Option<real>): (p: real)
    // The phase moves forward by the advance, modulo one wrap.
    ensures p == phase + PhaseAdvance(kw) || p == phase + PhaseAdvance(kw) - 1.0
    ensures p == phase + PhaseAdvance(kw) <==> phase + PhaseAdvance(kw) <= 1.0
    ensures phase <= 1.0 ==> p <= 1.0
    ensures 0.0 <= phase <= 1.0 ==> 0.0 < p <= 1.0
  {
    var advanced := phase + PhaseAdvance(kw);
    if advanced > 1.0 then advanced - 1.0 else advanced
  }

  /** A vertical track from `top` to `bottom` at column `x`, with the
      moving marker at `markerY`. */
  datatype Track = Track(x: int, top: int, bottom: int, markerY: int)

  /** The track drawn below an arrow whose top is at `yTop`. The marker sits
      at `phase` of the way down when the flow is downward, and at
      `1 - phase` of the way down (so it climbs as the phase grows) when
      the flow is upward. */
  function FlowTrack(x: int, yTop: int, phase: real, downward: bool): (t: Track)
    ensures t.x == x && t.top == yTop + 2 && t.bottom == t.top + TrackHeight
    ensures 0.0 <= phase <= 1.0 ==> t.top <= t.markerY <= t.bottom
    ensures downward && 0.0 <= phase ==>
              (t.markerY - t.top) as real <= phase * TrackHeight as real < (t.markerY - t.top + 1) as real
    ensures !downward && phase <= 1.0 ==>
              (t.markerY - t.top) as real <= (1.0 - phase) * TrackHeight as real < (t.markerY - t.top + 1) as real
    // Outside those ranges the product is negative and is truncated toward zero.
    ensures downward && phase <= 0.0 ==>
              (t.markerY - t.top - 1) as real < phase * TrackHeight as real <= (t.markerY - t.top) as real
    ensures !downward && phase >= 1.0 ==>
              (t.markerY - t.top - 1) as real < (1.0 - phase) * TrackHeight as real <= (t.markerY - t.top) as real
  {
    var y0 := yTop + 2;
    var frac := if downward then phase else 1.0 - phase;
    Track(x, y0, y0 + TrackHeight, y0 + Trunc(frac * TrackHeight as real))
  }

  /** The marker moves with the phase: down the track for downward flow, up
      it for upward flow, for any phase the caller holds. */
  lemma MarkerFollowsPhase(x: int, yTop: int, p: real, q: real)
    requires p <= q
    ensures FlowTrack(x, yTop, p, true).markerY <= FlowTrack(x, yTop, q, true).markerY
    ensures FlowTrack(x, yTop, p, false).markerY >= FlowTrack(x, yTop, q, false).markerY
  {
    TruncMonotone(p * TrackHeight as real, q * TrackHeight as real);
    TruncMonotone((1.0 - q) * TrackHeight as real, (1.0 - p) * TrackHeight as real);
  }

  /** The upward marker mirrors the downward one: their offsets from the top
      add up to the track height when `phase * 22` is a whole number, and to
      one pixel less otherwise (both offsets are truncated). */
  lemma MarkersMirror(x: int, yTop: int, phase: real)
    requires 0.0 <= phase <= 1.0
    ensures var down := FlowTrack(x, yTop, phase, true);
            var up := FlowTrack(x, yTop, phase, false);
            var sum := (down.markerY - down.top) + (up.markerY - up.top);
            (sum == TrackHeight <==> (phase * TrackHeight as real).Floor as real == phase * TrackHeight as real)
            && (sum == TrackHeight || sum == TrackHeight - 1)
  {
  }

  /** At the ends of the phase range the marker sits on the track's ends. */
  lemma MarkerEndpoints(x: int, yTop: int)
    ensures FlowTrack(x, yTop, 0.0, true).markerY == yTop + 2
    ensures FlowTrack(x, yTop, 1.0, true).markerY == yTop + 2 + TrackHeight
    ensures FlowTrack(x, yTop, 0.0, false).markerY == yTop + 2 + TrackHeight
    ensures FlowTrack(x, yTop, 1.0, false).markerY == yTop + 2
  {
  }
}

=== FILE: bar_gauge.dfy ===
/** The battery bar at the bottom of the screen: an outline 116 pixels wide,
    a fill proportional to the battery percentage, and a tick at the reserve
    percentage. Fill to the left of the tick is hatched (the buffer kept in
    reserve); fill to the right of it is solid (usable charge). */
module BarGauge {
  import opened Options
  import opened Numeric

  const BarLeft: int := 0
  const BarTop: int := 56
  const BarWidth: int := 116
  const BarHeight: int := 8

  /** The pixel offset `int((pct / 100) * 116)` clamped into the bar: the
      fill width for the battery percentage. */
  function BarOffset(pct: real): (w: int)
    ensures 0 <= w <= BarWidth
    ensures 0.0 <= pct <= 100.0 ==>
              w as real <= pct / 100.0 * BarWidth as real < w as real + 1.0
    ensures pct >= 100.0 ==> w == BarWidth
    ensures pct <= 0.0 ==> w == 0
  {
    ClampInt(Trunc(pct / 100.0 * BarWidth as real), 0, BarWidth)
  }

  /** A percentage outside [0, 100] gives the same offset as the nearest
      boundary, and more charge never gives a shorter bar. */
  lemma BarOffsetClampsAndGrows(p: real, q: real)
    requires p <= q
    ensures BarOffset(p) <= BarOffset(q)
    ensures p < 0.0 ==> BarOffset(p) == BarOffset(0.0)
    ensures q > 100.0 ==> BarOffset(q) == BarOffset(100.0)
  {
    TruncMonotone(p / 100.0 * BarWidth as real, q / 100.0 * BarWidth as real);
  }

  /** The reserve tick's column, clamped between the bar's edges. */
  function ReserveMarkerX(reservePct: real): (x: int)
    ensures BarLeft <= x <= BarLeft + BarWidth
    ensures x - BarLeft == BarOffset(reservePct)
  {
    ClampInt(BarLeft + Trunc(reservePct / 100.0 * BarWidth as real), BarLeft, BarLeft + BarWidth)
  }

  /** The filled rectangle drawn above the reserve, `x` pixels from the left. */
  datatype Rect = Rect(x: int, width: int)

  datatype Geometry = Geometry(filledWidth: int, reserveMarkerX: int, hatchWidth: int, solid: Option<Rect>)
  {
    function SolidWidth(): int {
      if solid.Some? then solid.value.width else 0
    }
  }

  /** The bar's fill geometry for a battery and a reserve percentage. */
  function Bar(batteryPct: real, reservePct: real): (g: Geometry)
    ensures g.filledWidth == BarOffset(batteryPct)
    ensures g.reserveMarkerX == BarLeft + BarOffset(reservePct)
    // The hatched part is the fill that lies below the reserve.
    ensures 0 <= g.hatchWidth <= g.filledWidth && g.hatchWidth <= g.reserveMarkerX - BarLeft
    ensures g.hatchWidth == g.filledWidth || g.hatchWidth == g.reserveMarkerX - BarLeft
    // The solid part exists exactly when the fill reaches past the reserve,
    // starts at the reserve tick and ends where the fill ends.
    ensures g.solid.Some? <==> g.filledWidth > g.reserveMarkerX - BarLeft
    ensures g.solid.Some? ==>
              g.solid.value.x == g.reserveMarkerX && g.solid.value.width > 0
              && g.solid.value.x + g.solid.value.width == BarLeft + g.filledWidth
    // Hatched and solid parts partition the fill.
    ensures g.hatchWidth + g.SolidWidth() == g.filledWidth
  {
    var filled := BarOffset(batteryPct);
    var marker := ReserveMarkerX(reservePct);
    var reserveFillLimit := if filled < marker - BarLeft then filled else marker - BarLeft;
    var solid := if filled > marker - BarLeft then Some(Rect(marker, filled - (marker - BarLeft))) else None;
    Geometry(filled, marker, reserveFillLimit, solid)
  }

  /** Once both percentages are in [0, 100] the clamps on the pixel values
      never bite: the fill and the tick are the truncated products. */
  lemma ClampsIdleOnSanitisedInputs(batteryPct: real, reservePct: real)
    requires 0.0 <= batteryPct <= 100.0 && 0.0 <= reservePct <= 100.0
    ensures Bar(batteryPct, reservePct).filledWidth == Trunc(batteryPct / 100.0 * BarWidth as real)
    ensures Bar(batteryPct, reservePct).reserveMarkerX == BarLeft + Trunc(reservePct / 100.0 * BarWidth as real)
  {
  }

  /** The x positions of the hatch lines: every second column from the left
      edge of the bar, as long as it is left of `BarLeft + hatchWidth`. */
  method HatchColumns(hatchWidth: int) returns (xs: seq<int>)
    ensures |xs| == if hatchWidth <= 0 then 0 else (hatchWidth + 1) / 2
    ensures forall i :: 0 <= i < |xs| ==> xs[i] == BarLeft + 2 * i
    ensures forall i :: 0 <= i < |xs| ==> BarLeft <= xs[i] < BarLeft + hatchWidth
  {
    xs := [];
    var x := BarLeft;
    while x < BarLeft + hatchWidth
      invariant x == BarLeft + 2 * |xs|
      invariant forall i :: 0 <= i < |xs| ==> xs[i] == BarLeft + 2 * i
      invariant |xs| == 0 || 2 * (|xs| - 1) < hatchWidth
      decreases BarLeft + hatchWidth - x
    {
      xs := xs + [x];
      x := x + 2;
    }
  }
}

=== FILE: hysteresis.dfy ===
/** The battery flow mode and its hysteresis. The caller owns an int:
    -1 charging, 0 idle, 1 discharging. From idle, charging is entered at
    kW <= -0.08 and discharging at kW >= 0.08. Charging is left for idle
    once kW rises above -0.03, and discharging once kW falls below 0.03, so
    a reading that hovers near zero does not make the arrows flicker. */
module Hysteresis {
  import opened Options

  const Charging: int := -1
  const Idle: int := 0
  const Discharging: int := 1

  const ChargeEnterKw: real := -0.08
  const DischargeEnterKw: real := 0.08
  const ChargeExitKw: real := -0.03
  const DischargeExitKw: real := 0.03

  const SourceThresholdKw: real := 0.10

  predicate ValidMode(m: int) {
    m == Charging || m == Idle || m == Discharging
  }

  /** One hysteresis update of the caller-held mode from the battery power
      reading `kw` (negative while charging). */
  function NextMode(mode: int, kw: Option<real>): (m: int)
    // A missing reading, or a mode value the firmware does not know, is left alone.
    ensures kw.None? || !ValidMode(mode) ==> m == mode
    // From idle a mode is entered only at the outer thresholds.
    ensures kw.Some? && mode == Idle ==>
              (m == Charging <==> kw.value <= ChargeEnterKw)
              && (m == Discharging <==> kw.value >= DischargeEnterKw)
              && (m == Idle <==> ChargeEnterKw < kw.value < DischargeEnterKw)
    // Charging is left for idle exactly when the draw rises above -0.03.
    ensures kw.Some? && mode == Charging ==>
              (m == Idle <==> kw.value > ChargeExitKw) && (m == Charging <==> kw.value <= ChargeExitKw)
    // Discharging is left for idle exactly when the draw falls below 0.03.
    ensures kw.Some? && mode == Discharging ==>
              (m == Idle <==> kw.value < DischargeExitKw) && (m == Discharging <==> kw.value >= DischargeExitKw)
    ensures ValidMode(mode) ==> ValidMode(m)
    // Charging and discharging never swap in one call: they pass through idle.
    ensures mode == Charging ==> m != Discharging
    ensures mode == Discharging ==> m != Charging
  {
    match kw
    case None => mode
    case Some(w) =>
      if mode == Idle then
        if w <= ChargeEnterKw then Charging
        else if w >= DischargeEnterKw then Discharging
        else Idle
      else if mode == Charging then
        if w > ChargeExitKw then Idle else Charging
      else if mode == Discharging then
        if w < DischargeExitKw then Idle else Discharging
      else mode
  }

  /** Inside the hysteresis bands the mode that was in force is kept:
      (-0.08, -0.03] holds idle and charging, [0.03, 0.08) holds idle and
      discharging, and a reading strictly between -0.03 and 0.03 brings
      every known mode to idle. */
  lemma HysteresisBands(mode: int, w: real)
    requires ValidMode(mode)
    ensures ChargeEnterKw < w <= ChargeExitKw && mode != Discharging ==> NextMode(mode, Some(w)) == mode
    ensures DischargeExitKw <= w < DischargeEnterKw && mode != Charging ==> NextMode(mode, Some(w)) == mode
    ensures ChargeExitKw < w < DischargeExitKw ==> NextMode(mode, Some(w)) == Idle
  {
  }

  /** A steady reading settles the mode within two calls: after that,
      further calls with the same reading change nothing. */
  lemma SettlesInTwoCalls(mode: int, kw: Option<real>)
    ensures NextMode(NextMode(NextMode(mode, kw), kw), kw) == NextMode(NextMode(mode, kw), kw)
  {
  }

  /** Which source is credited for charging. Grid is tested first, so it
      wins whenever both exceed the threshold. */
  datatype SourceFlags = SourceFlags(fromGrid: bool, fromSolar: bool)

  function Attribute(mode: int, solarKw: Option<real>, gridKw: Option<real>): (f: SourceFlags)
    ensures !(f.fromGrid && f.fromSolar)
    ensures f.fromGrid <==> mode == Charging && gridKw.Some? && gridKw.value > SourceThresholdKw
    ensures f.fromSolar <==>
              mode == Charging && !(gridKw.Some? && gridKw.value > SourceThresholdKw)
              && solarKw.Some? && solarKw.value > SourceThresholdKw
  {
    if mode == Charging then
      if gridKw.Some? && gridKw.value > SourceThresholdKw then SourceFlags(true, false)
      else if solarKw.Some? && solarKw.value > SourceThresholdKw then SourceFlags(false, true)
      else SourceFlags(false, false)
    else SourceFlags(false, false)
  }

  /** A flag is only ever raised while charging, and only by a known reading. */
  lemma FlagsNeedChargingAndReadings(mode: int, solarKw: Option<real>, gridKw: Option<real>)
    ensures Attribute(mode, solarKw, gridKw).fromGrid || Attribute(mode, solarKw, gridKw).fromSolar
            ==> mode == Charging
    ensures gridKw.None? ==> !Attribute(mode, solarKw, gridKw).fromGrid
    ensures solarKw.None? ==> !Attribute(mode, solarKw, gridKw).fromSolar
    ensures solarKw.None? && gridKw.None? ==> Attribute(mode, solarKw, gridKw) == SourceFlags(false, false)
  {
  }

  /** The word printed at the top left. Any mode value other than 1 or -1,
      including values outside the three known modes, reads "Idle". */
  function ModeWord(mode: int): (w: string)
    ensures w == "Discharging" <==> mode == Discharging
    ensures w == "Charging" <==> mode == Charging
    ensures w == "Idle" <==> mode != Discharging && mode != Charging
  {
    if mode == Discharging then "Discharging"
    else if mode == Charging then "Charging"
    else "Idle"
  }
}

=== FILE: numeric.dfy ===
/** Arithmetic helpers shared by the gauge: absolute value, clamping and the
    C++ `int(x)` conversion of a float, which truncates toward zero. */
module Numeric {

  function Abs(x: real): (r: real)
    ensures r >= 0.0
    ensures r == x || r == -x
  {
    if x < 0.0 then -x else x
  }

  /** Distance between two reals on the number line. */
  function Dist(a: real, b: real): (d: real)
    ensures d >= 0.0
    ensures d == 0.0 <==> a == b
  {
    Abs(a - b)
  }

  /** The pair of one-sided clamps `if (x < lo) x = lo; if (x > hi) x = hi;`
      and equally `std::min(std::max(x, lo), hi)`: the point of [lo, hi]
      nearest to `x`. */
  function ClampReal(x: real, lo: real, hi: real): (r: real)
    requires lo <= hi
    ensures lo <= r <= hi
    ensures lo <= x <= hi ==> r == x
    ensures forall y :: lo <= y <= hi ==> Dist(r, x) <= Dist(y, x)
  {
    if x < lo then lo else if x > hi then hi else x
  }

  /** `std::min(std::max(x, lo), hi)` on ints: the point of [lo, hi]
      nearest to `x`. */
  function ClampInt(x: int, lo: int, hi: int): (r: int)
    requires lo <= hi
    ensures lo <= r <= hi
    ensures lo <= x <= hi ==> r == x
    ensures x < lo ==> r == lo
    ensures x > hi ==> r == hi
  {
    if x < lo then lo else if x > hi then hi else x
  }

  /** The C++ float-to-int conversion: drops the fractional part, rounding
      toward zero on both sides. */
  function Trunc(x: real): (r: int)
    ensures 0.0 <= x ==> 0 <= r && r as real <= x < r as real + 1.0
    ensures x <= 0.0 ==> r <= 0 && r as real - 1.0 < x <= r as real
  {
    if x >= 0.0 then x.Floor else -((-x).Floor)
  }

  /** Truncation never decreases when its argument grows. */
  lemma TruncMonotone(x: real, y: real)
    requires x <= y
    ensures Trunc(x) <= Trunc(y)
  {
  }
}

=== FILE: options.dfy ===
/** Readings that may be missing. A sensor of the gauge publishes NaN until
    it has a value; here such a reading is `None` and a known one `Some`. */
module Options {

  datatype Option<+T> = None | Some(value: T) {

    /** The reading, or the stand-in the firmware writes when it is NaN
        (the 20 % reserve, say). */
    function GetOr(fallback: T): T {
      if Some? then value else fallback
    }
  }
}

=== FILE: renderer.dfy ===
/** One redraw of the gauge. The caller holds a flow state (mode and
    animation phase) across calls. A call without a battery percentage draws a
    placeholder and leaves that state alone; otherwise it sanitises the
    readings, updates the mode with hysteresis, advances the phase and
    composes the frame. The frame is described by what it shows, not by the pixels the display
    driver paints. */
module GaugeRenderer {
  import opened Options
  import opened Numeric
  import opened Sensors
  import opened Hysteresis
  import opened Animation
  import opened BarGauge

  const ArrowTopY: int := 26
  const IconCenterY: int := 40
  /** Column of the flow track beside the down arrow (discharging). */
  const DischargeTrackX: int := 118
  /** Column of the flow track beside the up arrow (charging). */
  const ChargeTrackX: int := 104

  /** The caller-owned state threaded through every call. */
  datatype FlowState = FlowState(mode: int, phase: real)

  const InitialFlow: FlowState := FlowState(Idle, 0.0)

  /** A mode the firmware knows and a phase inside [0, 1]. */
  predicate InRange(s: FlowState) {
    ValidMode(s.mode) && 0.0 <= s.phase <= 1.0
  }

  datatype DirectionIcon = DownArrow | UpArrow | Ring
  /** The charging source icon: sun for solar, bolt for grid, a dot when
      neither is credited. */
  datatype SourceIcon = Sun | Bolt | Dot

  datatype Frame =
    /** "--%" and "Waiting for data": nothing is known yet. */
    | Placeholder
    | Gauge(
        modeWord: string,
        powerKw: Option<real>,
        percent: real,
        direction: DirectionIcon,
        source: Option<SourceIcon>,
        track: Option<Track>,
        bar: Geometry)

  datatype Outcome = Outcome(flow: FlowState, frame: Frame)

  function DirectionFor(mode: int): (d: DirectionIcon)
    ensures d == DownArrow <==> mode == Discharging
    ensures d == UpArrow <==> mode == Charging
  {
    if mode == Discharging then DownArrow
    else if mode == Charging then UpArrow
    else Ring
  }

  /** The label at the top left and the arrow agree on every mode value,
      out-of-range ones included. */
  lemma LabelMatchesArrow(mode: int)
    ensures ModeWord(mode) == "Charging" <==> DirectionFor(mode) == UpArrow
    ensures ModeWord(mode) == "Discharging" <==> DirectionFor(mode) == DownArrow
    ensures ModeWord(mode) == "Idle" <==> DirectionFor(mode) == Ring
  {
  }

  /** The source icon is drawn only while charging. Solar is tested first
      here, which is harmless because `Attribute` never raises both flags. */
  function SourceIconFor(mode: int, flags: SourceFlags): (s: Option<SourceIcon>)
    ensures s.Some? <==> mode == Charging
    ensures mode == Charging ==>
              (s.value == Sun <==> flags.fromSolar)
              && (s.value == Bolt <==> flags.fromGrid && !flags.fromSolar)
              && (s.value == Dot <==> !flags.fromGrid && !flags.fromSolar)
  {
    if mode == Discharging then None
    else if mode == Charging then
      if flags.fromSolar then Some(Sun)
      else if flags.fromGrid then Some(Bolt)
      else Some(Dot)
    else None
  }

  /** The animated track: downward beside the down arrow while discharging,
      upward beside the up arrow while charging, absent while idle. */
  function TrackFor(mode: int, phase: real): (t: Option<Track>)
    ensures t.Some? <==> mode == Discharging || mode == Charging
    ensures mode == Discharging ==> t == Some(FlowTrack(DischargeTrackX, ArrowTopY, phase, true))
    ensures mode == Charging ==> t == Some(FlowTrack(ChargeTrackX, ArrowTopY, phase, false))
    ensures t.Some? && 0.0 <= phase <= 1.0 ==> t.value.top <= t.value.markerY <= t.value.top + TrackHeight
  {
    if mode == Discharging then Some(FlowTrack(DischargeTrackX, ArrowTopY, phase, true))
    else if mode == Charging then Some(FlowTrack(ChargeTrackX, ArrowTopY, phase, false))
    else None
  }

  /** One call of the redraw routine. */
  function Draw(raw: RawInputs, flow: FlowState): (r: Outcome)
    // With no battery percentage the placeholder is drawn and the state is untouched.
    ensures raw.batteryPct.None? <==> r.frame.Placeholder?
    ensures raw.batteryPct.None? ==> r.flow == flow
    ensures raw.batteryPct.Some? ==>
              r.flow.mode == NextMode(flow.mode, raw.batteryKw)
              && r.flow.phase == NextPhase(flow.phase, raw.batteryKw)
    ensures InRange(flow) ==> InRange(r.flow)
    // The frame shows the clamped percentage, the bar for the sanitised
    // readings, and the arrow, source icon and track for the new mode and phase.
    ensures raw.batteryPct.Some? ==>
              r.frame.Gauge?
              && r.frame.percent == ClampReal(raw.batteryPct.value, MinPct, MaxPct)
              && r.frame.bar.filledWidth == BarOffset(raw.batteryPct.value)
              && r.frame.bar == Bar(Sanitize(raw).value.batteryPct, Sanitize(raw).value.reservePct)
              && r.frame.direction == DirectionFor(r.flow.mode)
              && r.frame.source == SourceIconFor(r.flow.mode, Attribute(r.flow.mode, raw.solarKw, raw.gridKw))
              && r.frame.track == TrackFor(r.flow.mode, r.flow.phase)
    ensures r.frame.Gauge? ==>
              0.0 <= r.frame.percent <= 100.0
              && r.frame.powerKw == raw.batteryKw
              && r.frame.modeWord == ModeWord(r.flow.mode)
              && (r.frame.source.Some? <==> r.flow.mode == Charging)
              && (r.frame.track.Some? <==> r.flow.mode == Charging || r.flow.mode == Discharging)
    ensures r.frame.Gauge? && r.frame.source == Some(Bolt) ==>
              raw.gridKw.Some? && raw.gridKw.value > SourceThresholdKw
    ensures r.frame.Gauge? && r.frame.source == Some(Sun) ==>
              raw.solarKw.Some? && raw.solarKw.value > SourceThresholdKw
              && !(raw.gridKw.Some? && raw.gridKw.value > SourceThresholdKw)
    ensures r.frame.Gauge? && r.frame.track.Some? && 0.0 <= flow.phase <= 1.0 ==>
              r.frame.track.value.top <= r.frame.track.value.markerY <= r.frame.track.value.bottom
  {
    match Sanitize(raw)
    case None => Outcome(flow, Placeholder)
    case Some(inp) =>
      var mode := NextMode(flow.mode, inp.batteryKw);
      var flags := Attribute(mode, inp.solarKw, inp.gridKw);
      var phase := NextPhase(flow.phase, inp.batteryKw);
      var frame := Gauge(
        ModeWord(mode),
        inp.batteryKw,
        inp.batteryPct,
        DirectionFor(mode),
        SourceIconFor(mode, flags),
        TrackFor(mode, phase),
        Bar(inp.batteryPct, inp.reservePct));
      Outcome(FlowState(mode, phase), frame)
  }

  /** The phase advances the same way whatever the mode. */
  lemma PhaseIgnoresMode(raw: RawInputs, m1: int, m2: int, phase: real)
    ensures Draw(raw, FlowState(m1, phase)).flow.phase == Draw(raw, FlowState(m2, phase)).flow.phase
  {
  }

  /** The states a sequence of calls leaves behind, one per call. */
  function Run(flow: FlowState, raws: seq<RawInputs>): (trace: seq<FlowState>)
    ensures |trace| == |raws|
    ensures |raws| > 0 ==> trace[0] == Draw(raws[0], flow).flow
    // Each later state is the next call applied to the state before it.
    ensures forall i :: 0 < i < |raws| ==> trace[i] == Draw(raws[i], trace[i - 1]).flow
    decreases |raws|
  {
    if |raws| == 0 then []
    else
      var next := Draw(raws[0], flow).flow;
      [next] + Run(next, raws[1..])
  }

  /** Consecutive modes never jump straight between charging and discharging. */
  predicate NoReversal(before: int, after: int) {
    !(before == Charging && after == Discharging) && !(before == Discharging && after == Charging)
  }

  /** Over any number of calls started from an in-range state, every state
      stays in range, and the mode never swaps charging for discharging from
      one call to the next. */
  lemma {:induction false} RunStaysInRange(flow: FlowState, raws: seq<RawInputs>)
    requires InRange(flow)
    ensures forall i :: 0 <= i < |raws| ==> InRange(Run(flow, raws)[i])
    ensures |raws| > 0 ==> NoReversal(flow.mode, Run(flow, raws)[0].mode)
    ensures forall i :: 0 < i < |raws| ==> NoReversal(Run(flow, raws)[i - 1].mode, Run(flow, raws)[i].mode)
    decreases |raws|
  {
    if |raws| > 0 {
      var next := Draw(raws[0], flow).flow;
      RunStaysInRange(next, raws[1..]);
      var trace := Run(flow, raws);
      assert trace == [next] + Run(next, raws[1..]);
      forall i | 0 < i < |raws|
        ensures InRange(trace[i]) && NoReversal(trace[i - 1].mode, trace[i].mode)
      {
        assert trace[i] == Run(next, raws[1..])[i - 1];
        if i > 1 {
          assert trace[i - 1] == Run(next, raws[1..])[i - 2];
        }
      }
    }
  }
}

=== FILE: scenarios.dfy ===
/** Concrete calls of the redraw routine that pin its behaviour down on
    particular readings. */
module Scenarios {
  import opened Options
  import opened Sensors
  import opened Hysteresis
  import opened Animation
  import opened BarGauge
  import opened GaugeRenderer

  /** Readings with a known battery percentage and power, nothing else. */
  function Reading(pct: real, kw: real): RawInputs
  {
    RawInputs(Some(pct), Some(kw), None, None, None)
  }

  /** Starting idle, readings of 0.05, 0.09 and 0.04 kW give idle, then
      discharging, then discharging again: 0.04 is not below the 0.03 exit. */
  lemma HysteresisTrace()
    ensures var trace := Run(InitialFlow, [Reading(50.0, 0.05), Reading(50.0, 0.09), Reading(50.0, 0.04)]);
            trace[0].mode == Idle && trace[1].mode == Discharging && trace[2].mode == Discharging
  {
    var raws := [Reading(50.0, 0.05), Reading(50.0, 0.09), Reading(50.0, 0.04)];
    var s1 := Draw(raws[0], InitialFlow).flow;
    var s2 := Draw(raws[1], s1).flow;
    var s3 := Draw(raws[2], s2).flow;
    assert Run(s2, raws[2..]) == [s3];
    assert Run(s1, raws[1..]) == [s2] + Run(s2, raws[2..]);
  }

  /** Discharging ends once the draw is 0.02 kW. */
  lemma DischargeEndsBelowExit()
    ensures Draw(Reading(50.0, 0.02), FlowState(Discharging, 0.5)).flow.mode == Idle
  {
  }

  /** From phase 0.95 at 6 kW the speed factor is capped at 1, the phase
      advances by 0.16 and wraps to 0.11. */
  lemma PhaseWrapsAtFullSpeed()
    ensures NextPhase(0.95, Some(6.0)) == 0.11
  {
  }

  /** A phase that lands exactly on 1.0 is kept, not wrapped to 0. */
  lemma PhaseOfOneIsKept()
    ensures NextPhase(0.98, None) == 1.0
  {
  }

  /** A 20 % reserve on the 116-pixel bar puts the tick 23 pixels in. */
  lemma DefaultReserveTick()
    ensures ReserveMarkerX(20.0) == BarLeft + 23
  {
  }

  /** With grid and solar both at 0.5 kW while charging, grid is credited. */
  lemma GridWinsTie()
    ensures Attribute(Charging, Some(0.5), Some(0.5)) == SourceFlags(true, false)
    ensures Draw(RawInputs(Some(50.0), Some(-1.0), Some(0.5), Some(0.5), None), FlowState(Charging, 0.0)).frame.source
            == Some(Bolt)
  {
  }

  /** A missing battery percentage gives the placeholder and leaves the
      caller's state as it was, whatever the other readings say. */
  lemma MissingPercentIgnoresTheRest(a: RawInputs, b: RawInputs, flow: FlowState)
    requires a.batteryPct.None? && b.batteryPct.None?
    ensures Draw(a, flow) == Draw(b, flow) == Outcome(flow, Placeholder)
  {
  }

  /** A battery percentage above 100 or below 0 fills the bar exactly as 100
      or 0 would, and a missing reserve draws the tick where 20 % would. */
  lemma OutOfRangeReadingsMatchTheirClamp(raw: RawInputs, flow: FlowState)
    requires raw.batteryPct.Some?
    ensures var r := Draw(raw, flow);
            var p := raw.batteryPct.value;
            (p > 100.0 ==> r.frame.bar.filledWidth == BarOffset(100.0) == BarWidth)
            && (p < 0.0 ==> r.frame.bar.filledWidth == BarOffset(0.0) == 0)
            && (raw.reservePct.None? ==> r.frame.bar.reserveMarkerX == ReserveMarkerX(DefaultReservePct))
  {
  }
}

=== FILE: sensors.dfy ===
/** The five sensor readings the gauge is drawn from, and their
    sanitisation: a missing battery percentage means there is nothing to
    draw, percentages are clamped to [0, 100], and a missing reserve falls
    back to 20 %. Power readings pass through untouched. Later stages deal
    with a missing one each in their own way: the animation speed counts a
    missing battery reading as zero power, the mode update skips it and
    keeps the mode, and a missing solar or grid reading never credits its
    source. */
module Sensors {
  import opened Options
  import opened Numeric

  const MinPct: real := 0.0
  const MaxPct: real := 100.0
  const DefaultReservePct: real := 20.0

  /** One call's readings, each possibly missing (NaN in the firmware). */
  datatype RawInputs = RawInputs(
    batteryPct: Option<real>,
    batteryKw: Option<real>,
    solarKw: Option<real>,
    gridKw: Option<real>,
    reservePct: Option<real>)

  /** Readings after sanitisation: both percentages are known and in range. */
  datatype Inputs = Inputs(
    batteryPct: real,
    batteryKw: Option<real>,
    solarKw: Option<real>,
    gridKw: Option<real>,
    reservePct: real)

  predicate PctInRange(p: real) {
    MinPct <= p <= MaxPct
  }

  /** `None` when the battery percentage is missing; otherwise the readings
      with both percentages clamped and the reserve defaulted. */
  function Sanitize(raw: RawInputs): (r: Option<Inputs>)
    ensures r.None? <==> raw.batteryPct.None?
    ensures r.Some? ==> PctInRange(r.value.batteryPct) && PctInRange(r.value.reservePct)
    ensures r.Some? ==> forall y :: PctInRange(y) ==>
              Dist(r.value.batteryPct, raw.batteryPct.value) <= Dist(y, raw.batteryPct.value)
    ensures r.Some? && PctInRange(raw.batteryPct.value) ==> r.value.batteryPct == raw.batteryPct.value
    ensures r.Some? && raw.reservePct.None? ==> r.value.reservePct == DefaultReservePct
    ensures r.Some? && raw.reservePct.Some? ==> forall y :: PctInRange(y) ==>
              Dist(r.value.reservePct, raw.reservePct.value) <= Dist(y, raw.reservePct.value)
    ensures r.Some? && raw.reservePct.Some? && PctInRange(raw.reservePct.value) ==>
              r.value.reservePct == raw.reservePct.value
    ensures r.Some? ==>
              r.value.batteryKw == raw.batteryKw && r.value.solarKw == raw.solarKw && r.value.gridKw == raw.gridKw
  {
    match raw.batteryPct
    case None => None
    case Some(pct) =>
      var reserve := raw.reservePct.GetOr(DefaultReservePct);
      Some(Inputs(ClampReal(pct, MinPct, MaxPct), raw.batteryKw, raw.solarKw, raw.gridKw,
                  ClampReal(reserve, MinPct, MaxPct)))
  }

  /** Feeds sanitised readings back in as raw ones; readings already in
      range pass sanitisation unchanged. */
  function AsRaw(inp: Inputs): (raw: RawInputs)
    ensures PctInRange(inp.batteryPct) && PctInRange(inp.reservePct) ==> Sanitize(raw) == Some(inp)
  {
    RawInputs(Some(inp.batteryPct), inp.batteryKw, inp.solarKw, inp.gridKw, Some(inp.reservePct))
  }

  /** Sanitising is a projection: readings that are already sanitised come
      back unchanged. */
  lemma SanitizeIdempotent(raw: RawInputs)
    requires raw.batteryPct.Some?
    ensures Sanitize(AsRaw(Sanitize(raw).value)) == Sanitize(raw)
  {
  }
}
